=== FILE: README.md ===
# i-vector extraction server, modelled in Dafny

The server loads three models once (a diagonal-covariance GMM, a
full-covariance GMM and an i-vector extractor), listens on a socket, and
for every connection reads one request of at most 1024 bytes. The request
`quit` stops the server. Any other request is a feature rspecifier. The
server runs three stages over the utterances it names, then answers with
the 19-byte acknowledgement `Operation completed`:

1. Gaussian selection (`function_gmm`) keeps, per frame, a shortlist of the
   best diagonal Gaussians. The requested shortlist size is clamped to the
   model's size.
2. Posterior computation (`function_fgmm`) scores each frame against the
   full-covariance GMM over its shortlist and rejects an utterance whose
   softmax weights do not sum to one within 0.01. It then prunes the
   weights below `min_post` (falling back to the best Gaussian when nothing
   survives), renormalises, and emits sparse (Gaussian, weight) pairs.
3. i-vector extraction (`function_ivector`) skips an utterance whose frame
   count differs from the posterior's. Otherwise it scales the posterior by
   the acoustic weight and the `max_count` cap and runs one
   `IvectorExtractTask`. Each such task estimates the i-vector from a seed holding
   the prior offset, optionally measures the objective-function change, and
   writes the i-vector as an offset from the prior mean.

The intermediate results live in two buffers owned by `main`: `gselect`
and `post`. Both are shared by every utterance and every request. Stage 1
overwrites `gselect` for each utterance. Stage 2 indexes frames of every
utterance into that one `gselect`, and overwrites `post` for each
accepted utterance. Stage 3 pairs every utterance with that one `post`.
The model keeps this behaviour, states it in postconditions, and proves
what follows from it:

- after stage 1, only the last utterance's shortlists survive;
- after stage 2, only the last accepted utterance's posterior survives;
- stage 3 writes a record only for utterances with as many frames as that
  posterior, all from the same scaled posterior;
- so two utterances of different lengths never both get a record.

Layout, one module per file:

- `types.dfy` (`Types`): values (utterances, sparse posteriors, records),
  the models as values with the operations the stages call, the shared
  `Buffers` class, and the posterior totals and scaling.
- `selection.dfy` (`Selection`): stage 1.
- `pruning.dfy` (`Pruning`): the per-frame `min_post` step, done in place on
  an array, and the emission of the sparse frame posterior.
- `posteriors.dfy` (`Posteriors`): stage 2.
- `extraction_task.dfy` (`ExtractionTask`): the archive writer, the
  objective-change total and the `IvectorExtractTask` class.
- `extraction.dfy` (`Extraction`): stage 3.
- `server.dfy` (`Server`): the connection loop as the class
  `IvectorServer`, its step function and session fold.

Each imperative stage is a method proved against a fold over the
utterances (`PosteriorRun`, `ExtractRun`, `Session`). The lemmas state
the stages' properties about those folds.

## Model

| member | source | states |
|---|---|---|
| Selection.ClampShortlist | src/ivector-extract-server.cc:188-195 | the effective shortlist size is the minimum of the request and the model's Gaussian count: never above either, equal to one of them, positive when the model has Gaussians |
| Selection.GaussianSelectionStage | src/ivector-extract-server.cc:181-234 | a non-positive request gives status -1 and an untouched buffer; otherwise status is 0 iff some utterance was read, the shared `gselect` holds only the LAST utterance's shortlists (or is unchanged when there is none), each of the clamped size, and no utterance is counted as an error |
| Pruning.FirstMaxIndex | src/ivector-extract-server.cc:272-273 | the index `Max` reports holds the largest weight and no earlier index holds a weight as large |
| Pruning.Pruned | src/ivector-extract-server.cc:270-283 | reference definition of the pruning: the weights unchanged for `min_post` 0; else those below `min_post` zeroed, then divided by the surviving sum, or 1.0 at the first maximum when nothing survives; same length as the input |
| Pruning.PruneInPlace | src/ivector-extract-server.cc:271-283 | the `loglikes` array ends as `Pruned` of its old contents: untouched for `min_post` 0, else zeroed below the threshold and then rescaled, or the fallback 1.0 |
| Pruning.ZeroBelow | src/ivector-extract-server.cc:274-276 | every weight strictly below `min_post` is set to zero, the others kept |
| Pruning.ScaleInPlace | src/ivector-extract-server.cc:281 | every weight is multiplied by the factor |
| Pruning.PrunedWeights | src/ivector-extract-server.cc:274-282 | when something survives, each weight becomes 0 if below the threshold, else itself divided by the surviving sum |
| Pruning.EmptiedFrame | src/ivector-extract-server.cc:277-279 | pruning empties a frame iff every weight is below the threshold or zero; the frame then holds 1.0 at the first maximal index and 0 elsewhere |
| Pruning.PrunedSumsToOne | src/ivector-extract-server.cc:270-283 | with a nonzero `min_post` the weights sum to exactly one afterwards, in both the rescale and the fallback case |
| Pruning.PrunedNonNegative | src/ivector-extract-server.cc:270-283 | pruning keeps the weights non-negative |
| Pruning.Sparse | src/ivector-extract-server.cc:284-289 | reference definition of the emission: the (shortlist entry, weight) pairs of the nonzero weights, in index order |
| Pruning.EmitFrame | src/ivector-extract-server.cc:284-289 | the pairs pushed are `Sparse` of the weights and the shortlist |
| Pruning.NonzeroIndicesExact | src/ivector-extract-server.cc:284-285 | the emitted indices are exactly those with a nonzero weight, each once, strictly increasing |
| Pruning.SparseEntries | src/ivector-extract-server.cc:286 | the k-th emitted pair is (gselect[t][i], weight i) for the k-th nonzero index i |
| Pruning.SparseTotal | src/ivector-extract-server.cc:284-289 | dropping zero weights keeps the frame's weight total |
| Pruning.SparsePositive | src/ivector-extract-server.cc:284-289 | non-negative weights yield strictly positive emitted weights |
| Pruning.AcceptedFrameIsDistribution | src/ivector-extract-server.cc:268-290 | a frame that passed the 0.01 check emits a non-empty list of positive weights (so the assertion at line 290 never fails), summing to one when `min_post` is nonzero and to within 0.01 of one otherwise |
| Pruning.FallbackSingleEntry | src/ivector-extract-server.cc:272-279 | when everything is pruned away the frame emits the single pair (shortlist entry of the pre-pruning maximum, 1.0) |
| Posteriors.ScoreFrame | src/ivector-extract-server.cc:261-291 | reference definition of one frame: a fault when frame t has no shortlist or an empty one, a bad frame when the softmax weights miss one by more than 0.01, else the pruned sparse entries |
| Posteriors.ScoreUtterance | src/ivector-extract-server.cc:255-292 | reference definition of one utterance: the frames in order, a fault ending it, a bad frame adding an empty list and marking it not ok |
| Posteriors.PosteriorRun | src/ivector-extract-server.cc:251-306 | reference definition of the stage over a batch: a fault is final, an accepted utterance overwrites the shared `post` and adds one done, a rejected one adds one error |
| Posteriors.ScoreUtteranceFrames | src/ivector-extract-server.cc:255-292 | the frame loop, with the in-place pruning and the push_back emission, yields `ScoreUtterance`: a fault when a frame has no shortlist, else one list per frame, empty for bad frames |
| Posteriors.ScoreOneFrame | src/ivector-extract-server.cc:259-291 | one frame's body yields `ScoreFrame`: a fault when frame t has no shortlist or an empty one, a bad frame when the softmax weights miss one by more than 0.01, else the pruned sparse entries |
| Posteriors.PruneAndEmit | src/ivector-extract-server.cc:270-290 | the weights copied into `loglikes`, pruned in place and emitted give `Sparse(Pruned(...))`, and the list is never empty |
| Posteriors.PosteriorStage | src/ivector-extract-server.cc:236-316 | the shared `post` becomes `PosteriorRun(...).post`; status is -1 on a fault, else 0 iff some utterance was accepted, else 1; the report is the run's counters |
| Posteriors.NoRecoveryFromFault | src/ivector-extract-server.cc:261-263 | once a frame faults, the whole utterance faults |
| Posteriors.FaultIsFinal | src/ivector-extract-server.cc:313-315 | after a fault no later utterance changes the stage's outcome |
| Posteriors.GoodFrameIsDistribution | src/ivector-extract-server.cc:261-290 | a frame that passed the sum check emits a distribution over its shortlist, with every Gaussian taken from `gselect[t]` |
| Posteriors.WellFormedStep | src/ivector-extract-server.cc:255-292 | one more frame keeps one list per frame within the shortlists, and a still-accepted utterance keeps a distribution over the shortlist at every frame |
| Posteriors.AcceptedPosteriorIsWellFormed | src/ivector-extract-server.cc:253-298 | a scored utterance has one list per frame and no more frames than shortlists; an accepted one has a distribution over the shortlist at every frame |
| Posteriors.EveryUtteranceCounted | src/ivector-extract-server.cc:293-300 | without a fault, done plus errors equals the number of utterances |
| Posteriors.RejectionLeavesTotals | src/ivector-extract-server.cc:293-296 | a rejected utterance adds one error and leaves the done count, totals and shared `post` unchanged |
| Posteriors.RunStep | src/ivector-extract-server.cc:293-305 | an accepted utterance overwrites the shared `post` and adds one done; a rejected one leaves both |
| Posteriors.ExtendLastAccepted | src/ivector-extract-server.cc:293-296 | a rejected utterance appended after the last accepted one leaves that one the last accepted |
| Posteriors.LastAcceptedStep | src/ivector-extract-server.cc:293-298 | one more utterance keeps the buffer invariant: the initial contents while none is accepted, else the posterior of the last accepted utterance with only rejections after it |
| Posteriors.LastAccepted | src/ivector-extract-server.cc:298 | names the index of the last accepted utterance whose posterior the buffer holds after a run without fault, or shows the buffer untouched when none was accepted |
| Posteriors.BufferHoldsLastAccepted | src/ivector-extract-server.cc:298 | the shared `post` is the initial contents when nothing was accepted, else the posterior of the last accepted utterance, every later one having been rejected |
| ExtractionTask.Writer.Write | src/ivector-extract-server.cc:98 | a write appends one (key, vector) record |
| ExtractionTask.AuxfTotal.Add | src/ivector-extract-server.cc:86 | the total grows by the added change |
| ExtractionTask.Seed | src/ivector-extract-server.cc:71-72 | the seed has the extractor's dimension, the prior offset at coordinate 0 and zeros elsewhere |
| ExtractionTask.WrittenVector | src/ivector-extract-server.cc:95-98 | the written vector is the estimate with coordinate 0 reduced by the prior offset, every other coordinate unchanged |
| ExtractionTask.IvectorExtractTask.constructor | src/ivector-extract-server.cc:53-60 | a new `IvectorExtractTask` keeps the extractor, key, features, posterior, writer and total pointer |
| ExtractionTask.IvectorExtractTask.Run | src/ivector-extract-server.cc:62-82 | the i-vector becomes the estimate from the seed; the objective change is measured only when a total was given |
| ExtractionTask.IvectorExtractTask.Finish | src/ivector-extract-server.cc:83-99 | the change is added to the total only when one was given; the i-vector is shifted by the prior offset and written once |
| Extraction.ExtractRun | src/ivector-extract-server.cc:131-164 | reference definition of the stage over a batch: an utterance whose frame count differs from the shared posterior counts an error, every other one is scaled and written and adds one done |
| Extraction.CountScale | src/ivector-extract-server.cc:146-154 | when the count exceeds a positive `max_count`, the scale brings it down to exactly `max_count` |
| Extraction.ScaleForCount | src/ivector-extract-server.cc:146-157 | reference definition of the count scaling: the posterior scaled by the acoustic weight times `max_count_scale`, with the same frame count, and the weighted count capped at a positive `max_count`; what the scaled total means is stated by `ScaledTotalIsCount` |
| Types.TotalOfScaled | src/ivector-extract-server.cc:146-157 | scaling a posterior by a factor scales its total by that factor |
| Extraction.ScaledTotalIsCount | src/ivector-extract-server.cc:156 | after scaling, the posterior's total equals the weighted count added to `tot_t`, and never exceeds a positive `max_count` |
| Extraction.ScaleCount | src/ivector-extract-server.cc:146-157 | the inline scaling computes exactly `ScaleForCount` |
| Extraction.IvectorStage | src/ivector-extract-server.cc:111-178 | the writer receives exactly the records of `ExtractRun`, the report is its counters, and status is 0 iff some utterance was processed |
| Extraction.AdmittedExactly | src/ivector-extract-server.cc:136-142 | an utterance is admitted iff it is in the batch with as many frames as the shared posterior |
| Extraction.AdmittedShareFrameCount | src/ivector-extract-server.cc:134-136 | every admitted utterance has the shared posterior's frame count |
| Extraction.DifferentLengthsAtMostOneRecord | src/ivector-extract-server.cc:134-142 | of any two utterances of a batch with different frame counts, at most one is admitted, so at most one gets a record |
| Extraction.WritesUseSharedPosterior | src/ivector-extract-server.cc:131-164 | one record per admitted utterance, in order, each estimated from the SAME scaled posterior; done equals records written, and done plus errors equals the number of utterances |
| Extraction.FrameTotalCapped | src/ivector-extract-server.cc:149-162 | with a positive `max_count`, the weighted total is at most `max_count` per processed utterance |
| Extraction.CountOfTwentyCappedAtTen | src/ivector-extract-server.cc:146-157 | a weighted count of 20 under `max_count` 10 halves the weights and contributes 10 |
| Server.Dispatch | src/ivector-extract-server.cc:386-410 | pause iff `accept` failed; drop iff `recv` gave nothing; stop iff the payload is exactly `quit`; otherwise serve the payload, which is the first n bytes, at most 1024 |
| Server.ShortlistsAfter | src/ivector-extract-server.cc:188-211 | reference definition of the shortlist buffer after stage 1: unchanged for a non-positive request or an empty batch, else the last utterance's shortlists of the clamped size |
| Server.ServeRequest | src/ivector-extract-server.cc:397-406 | reference definition of a served request: the three stages in order over the shared buffers, then the acknowledgement and the close |
| Server.Next | src/ivector-extract-server.cc:386-410 | reference definition of one loop turn: pause, drop, stop or serve as `Dispatch` says; a stopped server does nothing |
| Server.Session | src/ivector-extract-server.cc:383-412 | reference definition of the loop: `Next` over the accepted connections in order |
| Server.IvectorServer.constructor | src/ivector-extract-server.cc:351-355 | the server starts running, with empty buffers, archive, replies and closed descriptors |
| Server.IvectorServer.Handle | src/ivector-extract-server.cc:383-411 | one loop turn changes the state as `Next`: the three stages in order over the shared buffers whatever their status, then the acknowledgement and `close`; `quit` stops without reply or close; a failed `accept` pauses and closes |
| Server.IvectorServer.Run | src/ivector-extract-server.cc:383-412 | the loop yields `Session` of the accepted connections; when it ends early the server is stopped, and it was still running before the last connection it took, so (by `ReplyIffServed`) that connection was the first `quit` |
| Server.StoppedIsFinal | src/ivector-extract-server.cc:391-394 | once stopped, no later connection changes anything |
| Server.OnlyAcknowledgementsSent | src/ivector-extract-server.cc:406 | every message sent is the acknowledgement, on a positive client descriptor, appended after the earlier ones |
| Server.ReplyIffServed | src/ivector-extract-server.cc:389-409 | the replies grow by one iff the server was running and the connection carried a request other than `quit`; the server keeps running iff it ran and the request was not `quit` |
| Server.EmptyRequestKeepsBuffers | src/ivector-extract-server.cc:397-402 | a request naming no utterances leaves both shared buffers as the previous request left them and re-creates the archive empty |
| Server.RequestRecords | src/ivector-extract-server.cc:397-402 | a request writes one record per utterance with the frame count of the posterior left by stage 2, all from that same scaled posterior |

## Left out

- Sockets are not modelled. `accept`, `recv`, `send`, `close`, `sleep(5)` and the socket setup become inputs (the `Connection` values) and logs in the state (replies, closed descriptors, pauses). The endless `while (1)` loop runs over a finite sequence of accepted connections.
- Server.Connection.WellFormed: what `recv` returns is an input, bounded by the buffer size and the bytes sent, so a short first read is modelled (the request is then the first n bytes); a request spread over several `recv` calls is not modelled, since the server reads only once.
- The feature archive is the function `reader`. Each of the three stages opens it anew, and the model assumes the three reads see the same utterances.
- Model reading and the numerical algorithms are collaborators given as values: Gaussian selection, the softmax over a shortlist, statistics accumulation, the i-vector estimate and the objective function. Only their shapes are assumed: shortlists of the requested size, one non-negative weight per shortlist entry, an estimate of the extractor's dimension.
- FullGmm.WellFormed: in IEEE arithmetic the softmax weights lie in [0, 1] and sum to one up to rounding, or are all NaN, so the C++ rejection branch at line 268 is practically never taken. A NaN sum makes `fabs(sum - 1.0) > 0.01` false, so such a frame passes the check, its NaN weights are emitted and the utterance is accepted; this is not modelled. The model leaves the sum unconstrained, an over-approximation that keeps the rejection path reachable. Floating point is modelled as exact reals. The conversion of the double-precision i-vector to single precision on write, NaN comparisons and 32/64-bit counter overflow are not modelled.
- A shortlist index past the end of `gselect` is undefined behaviour in C++. An empty shortlist fails an assertion, and a failed Kaldi assertion aborts the whole program (without NDEBUG; with it there is no check). Both are modelled as a stage fault with status -1, after which the server goes on to the next stage and replies. Other exceptions (unreadable archives, writer errors), the only source of -1 in the program itself, are not modelled.
- `TaskSequencer` threading and `g_num_threads` are not modelled. Each task runs and finishes before the next is submitted. With threads only the estimation calls (`operator()`) overlap; the sequencer destroys the tasks in submission order, so the write and the addition to `tot_auxf_change`, both done in the destructor, happen in the order the model gives them.
- The output archive is re-opened by every request. The model keeps the records of the last request only, which is what a truncating wspecifier gives. Appending wspecifiers and archive formats are not modelled.
- Logging, timers and verbose diagnostics are left out, and so are the averages that only feed the log.
- Selection.GaussianSelectionStage: a non-positive shortlist request fails the assertion at line 188, which in the program aborts the server with no reply and no close. The model's status -1 with the buffer untouched, and the service that continues after it, are a modelling choice. The report is left unspecified then, because the stage logs nothing.
- Posteriors.PosteriorStage: a missing or empty shortlist for a frame is undefined behaviour or a failed assertion, which aborts the server. The model's status -1 on a fault, and the service that continues after it, are a modelling choice.

=== FILE: extraction.dfy ===
/** Stage 3, i-vector extraction (`function_ivector`): every utterance is
    paired with the ONE posterior the stage is given; an utterance whose
    frame count differs from it is skipped, the others get the
    acoustic-weight and max-count scaling and one task each, run and
    finished before the next is submitted. */
module Extraction {
  import opened Types
  import opened ExtractionTask

  /** A posterior after the count scaling, with its weighted frame count. */
  datatype CountScaled = CountScaled(post: Posterior, thisT: real)

  /** The diagnostics the stage logs at its end. */
  datatype IvReport = IvReport(numDone: nat, numErr: nat, totT: real, totAuxf: real)

  /** The stage's diagnostics and the records it wrote, in order. */
  datatype IvState = IvState(report: IvReport, writes: seq<Record>)

  /** The factor `max_count_scale` of lines 149-154: 1 unless `max_count`
      is positive and the weighted count exceeds it. */
  function CountScale(maxCount: real, thisT: real): (scale: real)
    ensures maxCount > 0.0 && thisT > maxCount ==> scale * thisT == maxCount
  {
    if maxCount > 0.0 && thisT > maxCount then
      var scale := maxCount / thisT;
      assert scale * thisT == maxCount;
      scale
    else 1.0
  }

  /** Arithmetic helper for ScaledTotalIsCount: regrouping the factors. */
  lemma Regroup(a: real, b: real, c: real)
    ensures (a * b) * c == b * (a * c)
    ensures b == 1.0 ==> (a * b) * c == a * c
  {
  }

  /** The weighted frame count of line 146: the acoustic weight times the
      posterior's total. */
  function WeightedCount(acousticWeight: real, post: Posterior): real
  {
    acousticWeight * TotalPosterior(post)
  }

  /** The factor the posterior is scaled by (line 157): the acoustic weight
      times `max_count_scale`. */
  function Factor(acousticWeight: real, maxCount: real, post: Posterior): real
  {
    acousticWeight * CountScale(maxCount, WeightedCount(acousticWeight, post))
  }

  /** Lines 146-157: the scaled posterior, with the weighted count the stage
      adds to its total, capped at `max_count` when that is positive. */
  function ScaleForCount(acousticWeight: real, maxCount: real, post: Posterior): (r: CountScaled)
    ensures |r.post| == |post|
    ensures r.thisT == (if maxCount > 0.0 && WeightedCount(acousticWeight, post) > maxCount then maxCount
                        else WeightedCount(acousticWeight, post))
  {
    var thisT := WeightedCount(acousticWeight, post);
    CountScaled(ScalePosterior(Factor(acousticWeight, maxCount, post), post),
                if maxCount > 0.0 && thisT > maxCount then maxCount else thisT)
  }

  /** The scaled posterior's total is exactly the weighted count the stage
      adds to its frame total, so it never exceeds a positive `max_count`. */
  lemma ScaledTotalIsCount(acousticWeight: real, maxCount: real, post: Posterior)
    ensures TotalPosterior(ScaleForCount(acousticWeight, maxCount, post).post) ==
            ScaleForCount(acousticWeight, maxCount, post).thisT
    ensures maxCount > 0.0 ==> TotalPosterior(ScaleForCount(acousticWeight, maxCount, post).post) <= maxCount
  {
    var thisT := WeightedCount(acousticWeight, post);
    var scale := CountScale(maxCount, thisT);
    TotalOfScaled(Factor(acousticWeight, maxCount, post), post);
    Regroup(acousticWeight, scale, TotalPosterior(post));
  }

  /** Lines 131-164 over a run of utterances, every one paired with the same
      posterior `post`. */
  function ExtractRun(e: Extractor, computeObjf: bool, acousticWeight: real, maxCount: real,
                      post: Posterior, utts: seq<Utterance>): IvState
    requires e.WellFormed()
    decreases |utts|
  {
    if |utts| == 0 then IvState(IvReport(0, 0, 0.0, 0.0), [])
    else
      var st := ExtractRun(e, computeObjf, acousticWeight, maxCount, post, utts[..|utts| - 1]);
      var u := utts[|utts| - 1];
      var r := st.report;
      if |post| != |u.feats| then st.(report := r.(numErr := r.numErr + 1))
      else
        var c := ScaleForCount(acousticWeight, maxCount, post);
        var gain := if computeObjf then AuxfGain(e, u.feats, c.post) else 0.0;
        IvState(r.(numDone := r.numDone + 1, totT := r.totT + c.thisT, totAuxf := r.totAuxf + gain),
                st.writes + [Record(u.key, WrittenVector(e, u.feats, c.post))])
  }

  /** Lines 146-157 as the stage computes them: the weighted count, and the
      posterior scaled by the acoustic weight and `max_count_scale`. */
  method ScaleCount(acousticWeight: real, maxCount: real, post: Posterior)
    returns (scaled: Posterior, thisT: real)
    ensures CountScaled(scaled, thisT) == ScaleForCount(acousticWeight, maxCount, post)
  {
    thisT := acousticWeight * TotalPosterior(post);
    var maxCountScale := 1.0;
    if maxCount > 0.0 && thisT > maxCount {
      maxCountScale := maxCount / thisT;
      thisT := maxCount;
    }
    assert acousticWeight * maxCountScale == Factor(acousticWeight, maxCount, post);
    scaled := ScalePosterior(acousticWeight * maxCountScale, post);
  }

  /** `function_ivector`. The writer receives exactly the records of
      ExtractRun, each written before the stage returns; the status is 0
      exactly when some utterance was processed. */
  method IvectorStage(computeObjf: bool, acousticWeight: real, maxCount: real, utts: seq<Utterance>,
                      post: Posterior, e: Extractor, writer: Writer)
    returns (status: int, report: IvReport)
    requires e.WellFormed()
    modifies writer
    ensures writer.records == old(writer.records) + ExtractRun(e, computeObjf, acousticWeight, maxCount, post, utts).writes
    ensures report == ExtractRun(e, computeObjf, acousticWeight, maxCount, post, utts).report
    ensures status == (if report.numDone != 0 then 0 else 1)
  {
    var totAuxfChange := new AuxfTotal(0.0);
    var totT := 0.0;
    var numDone: nat, numErr: nat := 0, 0;
    for i := 0 to |utts|
      invariant writer.records == old(writer.records) + ExtractRun(e, computeObjf, acousticWeight, maxCount, post, utts[..i]).writes
      invariant ExtractRun(e, computeObjf, acousticWeight, maxCount, post, utts[..i]).report ==
        IvReport(numDone, numErr, totT, totAuxfChange.value)
    {
      assert utts[..i + 1][..i] == utts[..i];
      var utt := utts[i].key;
      var mat := utts[i].feats;
      var posterior := post;
      if |posterior| != |mat| {
        numErr := numErr + 1;
        continue;
      }
      var auxfPtr: AuxfTotal? := if computeObjf then totAuxfChange else null;
      var thisT;
      posterior, thisT := ScaleCount(acousticWeight, maxCount, posterior);
      var task := new IvectorExtractTask(e, utt, mat, posterior, writer, auxfPtr);
      task.Run();
      task.Finish();
      totT := totT + thisT;
      numDone := numDone + 1;
    }
    assert utts[..|utts|] == utts;
    report := IvReport(numDone, numErr, totT, totAuxfChange.value);
    status := if numDone != 0 then 0 else 1;
  }

  // ---------------------------------------------------------------------
  // Properties of the stage

  /** The utterances whose frame count equals n, in reader order. */
  function Admitted(utts: seq<Utterance>, n: nat): (a: seq<Utterance>)
    ensures |a| <= |utts|
    decreases |utts|
  {
    if |utts| == 0 then []
    else
      var u := utts[|utts| - 1];
      Admitted(utts[..|utts| - 1], n) + (if |u.feats| == n then [u] else [])
  }

  /** An utterance is admitted exactly when it occurs in the batch with as
      many frames as the shared posterior has. */
  lemma {:induction false} AdmittedExactly(utts: seq<Utterance>, n: nat)
    ensures forall u :: u in Admitted(utts, n) <==> u in utts && |u.feats| == n
    decreases |utts|
  {
    if |utts| > 0 {
      var m := |utts| - 1;
      AdmittedExactly(utts[..m], n);
      assert utts == utts[..m] + [utts[m]];
    }
  }

  /** Every admitted utterance has exactly n frames. */
  lemma {:induction false} AdmittedShareFrameCount(utts: seq<Utterance>, n: nat)
    ensures forall k | 0 <= k < |Admitted(utts, n)| :: |Admitted(utts, n)[k].feats| == n
    decreases |utts|
  {
    if |utts| > 0 {
      AdmittedShareFrameCount(utts[..|utts| - 1], n);
    }
  }

  /** Of any two utterances of a batch with different frame counts, at most
      one is admitted, so at most one of them gets a record (the records are
      exactly those of the admitted utterances, by WritesUseSharedPosterior). */
  lemma DifferentLengthsAtMostOneRecord(utts: seq<Utterance>, post: Posterior, i: int, j: int)
    requires 0 <= i < |utts| && 0 <= j < |utts|
    requires |utts[i].feats| != |utts[j].feats|
    ensures !(utts[i] in Admitted(utts, |post|) && utts[j] in Admitted(utts, |post|))
  {
    AdmittedExactly(utts, |post|);
  }

  /** What the stage writes, given the shared posterior `post`: one record
      per admitted utterance, in reader order, keyed by the utterance, and
      each vector estimated from the SAME scaled posterior; every other
      utterance is counted as an error. */
  lemma {:induction false} WritesUseSharedPosterior(e: Extractor, computeObjf: bool, acousticWeight: real, maxCount: real,
                                                   post: Posterior, utts: seq<Utterance>)
    requires e.WellFormed()
    ensures var st := ExtractRun(e, computeObjf, acousticWeight, maxCount, post, utts);
      var a := Admitted(utts, |post|);
      var scaled := ScaleForCount(acousticWeight, maxCount, post).post;
      |st.writes| == |a| == st.report.numDone &&
      st.report.numDone + st.report.numErr == |utts| &&
      forall k | 0 <= k < |a| :: st.writes[k] == Record(a[k].key, WrittenVector(e, a[k].feats, scaled))
    decreases |utts|
  {
    if |utts| > 0 {
      WritesUseSharedPosterior(e, computeObjf, acousticWeight, maxCount, post, utts[..|utts| - 1]);
    }
  }

  /** The weighted frame total grows by at most `max_count` per processed
      utterance when `max_count` is positive. */
  lemma {:induction false} FrameTotalCapped(e: Extractor, computeObjf: bool, acousticWeight: real, maxCount: real,
                                            post: Posterior, utts: seq<Utterance>)
    requires e.WellFormed() && maxCount > 0.0
    ensures ExtractRun(e, computeObjf, acousticWeight, maxCount, post, utts).report.totT <=
            ExtractRun(e, computeObjf, acousticWeight, maxCount, post, utts).report.numDone as real * maxCount
    decreases |utts|
  {
    if |utts| > 0 {
      FrameTotalCapped(e, computeObjf, acousticWeight, maxCount, post, utts[..|utts| - 1]);
    }
  }

  /** Worked example: with `max_count` 10 and a weighted count of 20, the weights are halved
      and the utterance contributes 10 to the frame total. */
  lemma CountOfTwentyCappedAtTen(acousticWeight: real, post: Posterior)
    requires acousticWeight * TotalPosterior(post) == 20.0
    ensures ScaleForCount(acousticWeight, 10.0, post) == CountScaled(ScalePosterior(acousticWeight * 0.5, post), 10.0)
  {
    assert CountScale(10.0, 20.0) == 0.5;
    assert Factor(acousticWeight, 10.0, post) == acousticWeight * 0.5;
  }
}

=== FILE: extraction_task.dfy ===
/** The unit of work of stage 3 (`IvectorExtractTask`): estimate one
    utterance's i-vector starting from the prior offset, optionally measure
    the objective-function change, and on completion write the i-vector as
    an offset from the prior mean and add the change to the shared total. */
module ExtractionTask {
  import opened Types

  /** The output archive writer: every write is appended. */
  class Writer {
    var records: seq<Record>

    constructor ()
      ensures records == []
    {
      records := [];
    }

    method Write(key: string, vector: seq<real>)
      modifies this
      ensures records == old(records) + [Record(key, vector)]
    {
      records := records + [Record(key, vector)];
    }
  }

  /** The objective-function-change total every extraction task adds to (the variable
      `tot_auxf_change` of `function_ivector`). */
  class AuxfTotal {
    var value: real

    constructor (v: real)
      ensures value == v
    {
      value := v;
    }

    method Add(d: real)
      modifies this
      ensures value == old(value) + d
    {
      value := value + d;
    }
  }

  /** The i-vector a task starts from: all zeros but coordinate 0, which
      holds the prior offset. */
  function Seed(e: Extractor): (v: seq<real>)
    requires e.ivectorDim > 0
    ensures |v| == e.ivectorDim && v[0] == e.priorOffset
    ensures forall i | 1 <= i < |v| :: v[i] == 0.0
  {
    seq(e.ivectorDim, i => if i == 0 then e.priorOffset else 0.0)
  }

  /** The extractor's distribution mean, estimated from the seed. */
  function Estimate(e: Extractor, feats: Matrix, post: Posterior): (v: seq<real>)
    requires e.WellFormed()
    ensures |v| == e.ivectorDim
  {
    e.estimate(feats, post, Seed(e))
  }

  /** Objective function at the estimate minus objective function at the seed. */
  function AuxfGain(e: Extractor, feats: Matrix, post: Posterior): real
    requires e.WellFormed()
  {
    e.auxf(feats, post, Estimate(e, feats, post)) - e.auxf(feats, post, Seed(e))
  }

  /** The vector a task writes: the estimate with coordinate 0 reduced by the
      prior offset, every other coordinate unchanged. */
  function WrittenVector(e: Extractor, feats: Matrix, post: Posterior): (v: seq<real>)
    requires e.WellFormed()
    ensures |v| == e.ivectorDim
    ensures v[0] == Estimate(e, feats, post)[0] - e.priorOffset
    ensures forall i | 1 <= i < |v| :: v[i] == Estimate(e, feats, post)[i]
  {
    var m := Estimate(e, feats, post);
    m[0 := m[0] - e.priorOffset]
  }

  /** Where a task is in its life: built, run (`operator()`), finished
      (destructor). */
  datatype Phase = Created | Ran | Finished

  class IvectorExtractTask {
    const extractor: Extractor
    const utt: string
    const feats: Matrix
    const posterior: Posterior
    const writer: Writer
    /** Null when the objective-function change is not wanted. */
    const totAuxfChange: AuxfTotal?
    var ivector: seq<real>
    var auxfChange: real
    ghost var phase: Phase

    constructor (extractor: Extractor, utt: string, feats: Matrix, posterior: Posterior,
                 writer: Writer, totAuxfChange: AuxfTotal?)
      ensures this.extractor == extractor && this.utt == utt && this.feats == feats
      ensures this.posterior == posterior && this.writer == writer && this.totAuxfChange == totAuxfChange
      ensures phase == Created
    {
      this.extractor := extractor;
      this.utt := utt;
      this.feats := feats;
      this.posterior := posterior;
      this.writer := writer;
      this.totAuxfChange := totAuxfChange;
      ivector := [];
      auxfChange := 0.0;
      phase := Created;
    }

    /** `operator()`: the i-vector becomes the estimate from the seed; the
        objective-function change is measured only when a total was given. */
    method Run()
      requires phase == Created && extractor.WellFormed()
      modifies this
      ensures phase == Ran
      ensures ivector == Estimate(extractor, feats, posterior)
      ensures totAuxfChange != null ==> auxfChange == AuxfGain(extractor, feats, posterior)
      ensures totAuxfChange == null ==> auxfChange == old(auxfChange)
    {
      ivector := seq(extractor.ivectorDim, _ => 0.0);
      ivector := ivector[0 := extractor.priorOffset];
      assert ivector == Seed(extractor);
      if totAuxfChange != null {
        var oldAuxf := extractor.auxf(feats, posterior, ivector);
        ivector := extractor.estimate(feats, posterior, ivector);
        var newAuxf := extractor.auxf(feats, posterior, ivector);
        auxfChange := newAuxf - oldAuxf;
      } else {
        ivector := extractor.estimate(feats, posterior, ivector);
      }
      phase := Ran;
    }

    /** The destructor: the change goes into the total when one was given,
        and the i-vector, as an offset from the prior mean, is written once. */
    method Finish()
      requires phase == Ran && |ivector| > 0
      modifies this, writer, totAuxfChange
      ensures phase == Finished
      ensures ivector == old(ivector)[0 := old(ivector)[0] - extractor.priorOffset]
      ensures writer.records == old(writer.records) + [Record(utt, ivector)]
      ensures totAuxfChange != null ==> totAuxfChange.value == old(totAuxfChange.value) + old(auxfChange)
      ensures auxfChange == old(auxfChange)
    {
      if totAuxfChange != null {
        totAuxfChange.Add(auxfChange);
      }
      ivector := ivector[0 := ivector[0] - extractor.priorOffset];
      writer.Write(utt, ivector);
      phase := Finished;
    }
  }
}

=== FILE: posteriors.dfy ===
/** Stage 2, pruned posterior computation (`function_fgmm`): for every
    utterance, score each frame against the full-covariance model over the
    shortlist found at the same frame index of the ONE shortlist buffer it
    is given, reject the utterance when a frame's weights do not sum to one
    within 0.01, and overwrite the shared posterior buffer with each accepted
    utterance's posterior. */
module Posteriors {
  import opened Types
  import opened Pruning

  /** What one frame contributes: a fault (the shortlist index is out of
      range, or the shortlist is empty: the stage ends with -1), a bad sum
      (the utterance will be rejected), or the emitted sparse posterior. */
  datatype FrameOutcome =
    | FrameFault
    | FrameBad(logSum: real)
    | FrameGood(logSum: real, entries: FramePosterior)

  /** What one utterance contributes: a fault, or its posterior (one entry
      list per frame, empty for bad frames) with `ok` false when some frame
      had a bad sum, its log-likelihood and its number of emitted entries. */
  datatype UttOutcome =
    | Faulted
    | Scored(ok: bool, post: Posterior, loglike: real, posts: nat)

  /** The diagnostics the stage logs at its end. */
  datatype FgmmReport = FgmmReport(numDone: nat, numErr: nat, totLoglike: real, totFrames: nat, totPosts: nat)

  /** State of the stage after a run of utterances: whether it faulted, the
      shared posterior buffer, and the diagnostics. */
  datatype FgmmState = FgmmState(faulted: bool, post: Posterior, report: FgmmReport)

  /** Lines 261-291 for frame t. */
  function ScoreFrame(fgmm: FullGmm, gselect: seq<seq<int>>, t: nat, frame: Frame, minPost: real): FrameOutcome
    requires fgmm.WellFormed()
  {
    if t >= |gselect| || |gselect[t]| == 0 then FrameFault
    else
      var sm := fgmm.softmax(frame, gselect[t]);
      if Abs(Sum(sm.weights) - 1.0) > 0.01 then FrameBad(sm.logSum)
      else FrameGood(sm.logSum, Sparse(Pruned(sm.weights, minPost), gselect[t]))
  }

  /** One more frame of an utterance: a fault ends it, a bad frame adds an
      empty list and marks it not ok, a good frame adds its emitted list. */
  function Extend(before: UttOutcome, fr: FrameOutcome): UttOutcome
  {
    match before
    case Faulted => Faulted
    case Scored(ok, post, loglike, posts) =>
      match fr
      case FrameFault => Faulted
      case FrameBad(l) => Scored(false, post + [[]], loglike + l, posts)
      case FrameGood(l, e) => Scored(ok, post + [e], loglike + l, posts + |e|)
  }

  /** Lines 255-292: every frame of one utterance, in order. Frames after a
      bad one are still scored. */
  function ScoreUtterance(fgmm: FullGmm, gselect: seq<seq<int>>, feats: Matrix, minPost: real): UttOutcome
    requires fgmm.WellFormed()
    decreases |feats|
  {
    if |feats| == 0 then Scored(true, [], 0.0, 0)
    else
      var n := |feats| - 1;
      Extend(ScoreUtterance(fgmm, gselect, feats[..n], minPost), ScoreFrame(fgmm, gselect, n, feats[n], minPost))
  }

  /** Lines 251-306 over a run of utterances, starting from the buffer
      contents `init`. Entries emitted for the good frames of a rejected
      utterance still count in `totPosts`, as at line 287. */
  function PosteriorRun(fgmm: FullGmm, gselect: seq<seq<int>>, minPost: real, utts: seq<Utterance>, init: Posterior): FgmmState
    requires fgmm.WellFormed()
    decreases |utts|
  {
    if |utts| == 0 then FgmmState(false, init, FgmmReport(0, 0, 0.0, 0, 0))
    else
      var u := utts[|utts| - 1];
      Advance(PosteriorRun(fgmm, gselect, minPost, utts[..|utts| - 1], init),
              ScoreUtterance(fgmm, gselect, u.feats, minPost), |u.feats|)
  }

  /** One more utterance of `frames` frames with outcome `out`: a fault is
      final, an accepted utterance overwrites the buffer, a rejected one
      only counts an error. */
  function Advance(st: FgmmState, out: UttOutcome, frames: nat): FgmmState
  {
    var r := st.report;
    if st.faulted then st
    else
      match out
      case Faulted => st.(faulted := true)
      case Scored(ok, post, loglike, posts) =>
        if ok then
          FgmmState(false, post, r.(numDone := r.numDone + 1, totLoglike := r.totLoglike + loglike,
                                    totFrames := r.totFrames + frames, totPosts := r.totPosts + posts))
        else
          FgmmState(false, st.post, r.(numErr := r.numErr + 1, totPosts := r.totPosts + posts))
  }

  /** The frame loop of lines 255-292 for one utterance, with the in-place
      pruning of `loglikes` and the push_back emission. */
  method ScoreUtteranceFrames(fgmm: FullGmm, gselect: seq<seq<int>>, feats: Matrix, minPost: real)
    returns (outcome: UttOutcome)
    requires fgmm.WellFormed()
    ensures outcome == ScoreUtterance(fgmm, gselect, feats, minPost)
  {
    var post: Posterior := [];
    var thisTotLoglike := 0.0;
    var uttOk := true;
    var posts: nat := 0;
    for t := 0 to |feats|
      invariant ScoreUtterance(fgmm, gselect, feats[..t], minPost) == Scored(uttOk, post, thisTotLoglike, posts)
    {
      ScoreUtteranceStep(fgmm, gselect, feats, minPost, t);
      var fr := ScoreOneFrame(fgmm, gselect, t, feats[t], minPost);
      match fr {
        case FrameFault =>
          NoRecoveryFromFault(fgmm, gselect, feats, minPost, t + 1);
          return Faulted;
        case FrameBad(logSum) =>
          thisTotLoglike := thisTotLoglike + logSum;
          uttOk := false;
          post := post + [[]];
        case FrameGood(logSum, entries) =>
          thisTotLoglike := thisTotLoglike + logSum;
          post := post + [entries];
          posts := posts + |entries|;
      }
    }
    assert feats[..|feats|] == feats;
    outcome := Scored(uttOk, post, thisTotLoglike, posts);
  }

  /** The body of the frame loop (lines 259-291) for frame t: the shortlist
      lookup and its assertion, the softmax, the sum check, then the pruning
      and emission of an accepted frame. */
  method ScoreOneFrame(fgmm: FullGmm, gselect: seq<seq<int>>, t: nat, frame: Frame, minPost: real)
    returns (fr: FrameOutcome)
    requires fgmm.WellFormed()
    ensures fr == ScoreFrame(fgmm, gselect, t, frame, minPost)
  {
    if t >= |gselect| || |gselect[t]| == 0 {
      return FrameFault;
    }
    var sel := gselect[t];
    var sm := fgmm.softmax(frame, sel);
    if Abs(Sum(sm.weights) - 1.0) > 0.01 {
      return FrameBad(sm.logSum);
    }
    var entries := PruneAndEmit(sm.weights, sel, minPost);
    fr := FrameGood(sm.logSum, entries);
  }

  /** Lines 270-290 for one accepted frame: the weights are copied into the
      `loglikes` vector, pruned in place and emitted; the emitted list is
      never empty, so the assertion of line 290 always holds. */
  method PruneAndEmit(weights: seq<real>, sel: seq<int>, minPost: real) returns (entries: FramePosterior)
    requires |weights| == |sel| > 0 && NonNegative(weights)
    requires Abs(Sum(weights) - 1.0) <= 0.01
    ensures entries == Sparse(Pruned(weights, minPost), sel)
    ensures |entries| > 0
  {
    var loglikes := new real[|weights|](i requires 0 <= i < |weights| => weights[i]);
    assert loglikes[..] == weights;
    PruneInPlace(loglikes, minPost);
    entries := EmitFrame(loglikes[..], sel);
    assert |entries| > 0 by {
      AcceptedFrameIsDistribution(weights, sel, minPost);
    }
  }

  /** `function_fgmm`. The buffer ends with the posterior of the LAST
      accepted utterance (or keeps its old contents when none is accepted,
      and keeps the last one accepted before a fault); the status is -1 on a
      fault and otherwise 0 exactly when some utterance was accepted. */
  method PosteriorStage(minPost: real, fgmm: FullGmm, utts: seq<Utterance>, gselect: seq<seq<int>>, buf: Buffers)
    returns (status: int, report: FgmmReport)
    requires fgmm.WellFormed()
    modifies buf`post
    ensures buf.post == PosteriorRun(fgmm, gselect, minPost, utts, old(buf.post)).post
    ensures status == (if PosteriorRun(fgmm, gselect, minPost, utts, old(buf.post)).faulted then -1
                       else if PosteriorRun(fgmm, gselect, minPost, utts, old(buf.post)).report.numDone != 0 then 0
                       else 1)
    ensures !PosteriorRun(fgmm, gselect, minPost, utts, old(buf.post)).faulted ==>
      report == PosteriorRun(fgmm, gselect, minPost, utts, old(buf.post)).report
  {
    ghost var init := buf.post;
    var numDone: nat, numErr: nat := 0, 0;
    var totLoglike, totFrames: nat, totPosts: nat := 0.0, 0, 0;
    var i := 0;
    var faulted := false;
    while i < |utts| && !faulted
      invariant 0 <= i <= |utts|
      invariant PosteriorRun(fgmm, gselect, minPost, utts[..i], init) ==
        FgmmState(faulted, buf.post, FgmmReport(numDone, numErr, totLoglike, totFrames, totPosts))
    {
      PosteriorRunStep(fgmm, gselect, minPost, utts, init, i);
      ghost var before := FgmmState(faulted, buf.post, FgmmReport(numDone, numErr, totLoglike, totFrames, totPosts));
      var mat := utts[i].feats;
      var outcome := ScoreUtteranceFrames(fgmm, gselect, mat, minPost);
      match outcome {
        case Faulted =>
          faulted := true;
        case Scored(ok, post, thisTotLoglike, posts) =>
          totPosts := totPosts + posts;
          if !ok {
            numErr := numErr + 1;
          } else {
            buf.post := post;
            numDone := numDone + 1;
            totLoglike := totLoglike + thisTotLoglike;
            totFrames := totFrames + |mat|;
          }
      }
      assert FgmmState(faulted, buf.post, FgmmReport(numDone, numErr, totLoglike, totFrames, totPosts))
        == Advance(before, outcome, |mat|);
      i := i + 1;
    }
    report := FgmmReport(numDone, numErr, totLoglike, totFrames, totPosts);
    if faulted {
      FaultIsFinal(fgmm, gselect, minPost, utts, init, i);
      status := -1;
    } else {
      assert utts[..|utts|] == utts;
      status := if numDone != 0 then 0 else 1;
    }
  }

  // ---------------------------------------------------------------------
  // Helpers for the stage's proof

  lemma ScoreUtteranceStep(fgmm: FullGmm, gselect: seq<seq<int>>, feats: Matrix, minPost: real, t: nat)
    requires fgmm.WellFormed() && t < |feats|
    ensures ScoreUtterance(fgmm, gselect, feats[..t + 1], minPost) ==
      Extend(ScoreUtterance(fgmm, gselect, feats[..t], minPost), ScoreFrame(fgmm, gselect, t, feats[t], minPost))
  {
    assert feats[..t + 1][..t] == feats[..t];
  }

  lemma PosteriorRunStep(fgmm: FullGmm, gselect: seq<seq<int>>, minPost: real, utts: seq<Utterance>, init: Posterior, i: nat)
    requires fgmm.WellFormed() && i < |utts|
    ensures PosteriorRun(fgmm, gselect, minPost, utts[..i + 1], init) ==
      Advance(PosteriorRun(fgmm, gselect, minPost, utts[..i], init),
              ScoreUtterance(fgmm, gselect, utts[i].feats, minPost), |utts[i].feats|)
  {
    assert utts[..i + 1][..i] == utts[..i];
  }

  lemma {:induction false} NoRecoveryFromFault(fgmm: FullGmm, gselect: seq<seq<int>>, feats: Matrix, minPost: real, t: nat)
    requires fgmm.WellFormed()
    requires t <= |feats|
    requires ScoreUtterance(fgmm, gselect, feats[..t], minPost).Faulted?
    ensures ScoreUtterance(fgmm, gselect, feats, minPost).Faulted?
    decreases |feats| - t
  {
    if t < |feats| {
      assert feats[..t + 1][..t] == feats[..t];
      NoRecoveryFromFault(fgmm, gselect, feats, minPost, t + 1);
    } else {
      assert feats[..t] == feats;
    }
  }

  lemma {:induction false} FaultIsFinal(fgmm: FullGmm, gselect: seq<seq<int>>, minPost: real, utts: seq<Utterance>, init: Posterior, i: nat)
    requires fgmm.WellFormed()
    requires i <= |utts|
    requires PosteriorRun(fgmm, gselect, minPost, utts[..i], init).faulted
    ensures PosteriorRun(fgmm, gselect, minPost, utts, init) == PosteriorRun(fgmm, gselect, minPost, utts[..i], init)
    decreases |utts| - i
  {
    if i < |utts| {
      assert utts[..i + 1][..i] == utts[..i];
      FaultIsFinal(fgmm, gselect, minPost, utts, init, i + 1);
    } else {
      assert utts[..i] == utts;
    }
  }

  // ---------------------------------------------------------------------
  // Properties of the stage

  /** An emitted frame posterior that is a distribution over its shortlist:
      non-empty, positive weights, Gaussian indices from the shortlist, and
      a total of exactly one when `min_post` is nonzero (within 0.01 of one
      otherwise). */
  ghost predicate IsFrameDistribution(e: FramePosterior, sel: seq<int>, minPost: real)
  {
    |e| > 0 &&
    (forall k | 0 <= k < |e| :: e[k].weight > 0.0 && e[k].gauss in sel) &&
    (minPost != 0.0 ==> FrameTotal(e) == 1.0) &&
    (minPost == 0.0 ==> Abs(FrameTotal(e) - 1.0) <= 0.01)
  }

  /** A frame that passed the sum check emits a distribution over its
      shortlist. */
  lemma GoodFrameIsDistribution(fgmm: FullGmm, gselect: seq<seq<int>>, t: nat, frame: Frame, minPost: real)
    requires fgmm.WellFormed()
    requires ScoreFrame(fgmm, gselect, t, frame, minPost).FrameGood?
    ensures t < |gselect|
    ensures IsFrameDistribution(ScoreFrame(fgmm, gselect, t, frame, minPost).entries, gselect[t], minPost)
  {
    var sel := gselect[t];
    var w := fgmm.softmax(frame, sel).weights;
    var e := ScoreFrame(fgmm, gselect, t, frame, minPost).entries;
    AcceptedFrameIsDistribution(w, sel, minPost);
    var p := Pruned(w, minPost);
    SparseEntries(p, sel);
    forall k | 0 <= k < |e| ensures e[k].gauss in sel {
      assert e[k].gauss == sel[NonzeroIndices(p)[k]];
    }
  }

  /** Every scored utterance has one entry list per frame and a shortlist
      for each of them. For an accepted one, every frame's list is a
      distribution over that frame's shortlist. */
  lemma {:induction false} AcceptedPosteriorIsWellFormed(fgmm: FullGmm, gselect: seq<seq<int>>, feats: Matrix, minPost: real)
    requires fgmm.WellFormed()
    requires ScoreUtterance(fgmm, gselect, feats, minPost).Scored?
    ensures |ScoreUtterance(fgmm, gselect, feats, minPost).post| == |feats| <= |gselect|
    ensures ScoreUtterance(fgmm, gselect, feats, minPost).ok ==>
      forall t | 0 <= t < |feats| ::
        IsFrameDistribution(ScoreUtterance(fgmm, gselect, feats, minPost).post[t], gselect[t], minPost)
    decreases |feats|
  {
    if |feats| > 0 {
      var n := |feats| - 1;
      ScoreUtteranceStep(fgmm, gselect, feats, minPost, n);
      assert feats[..n + 1] == feats;
      AcceptedPosteriorIsWellFormed(fgmm, gselect, feats[..n], minPost);
      WellFormedStep(fgmm, gselect, n, feats[n], minPost,
                     ScoreUtterance(fgmm, gselect, feats[..n], minPost));
    }
  }

  /** The step of AcceptedPosteriorIsWellFormed, over the outcome `before`
      of the first n frames. */
  lemma WellFormedStep(fgmm: FullGmm, gselect: seq<seq<int>>, n: nat, frame: Frame, minPost: real, before: UttOutcome)
    requires fgmm.WellFormed()
    requires Extend(before, ScoreFrame(fgmm, gselect, n, frame, minPost)).Scored?
    requires before.Scored? ==> |before.post| == n <= |gselect|
    requires before.Scored? && before.ok ==>
      forall t | 0 <= t < n :: IsFrameDistribution(before.post[t], gselect[t], minPost)
    ensures var out := Extend(before, ScoreFrame(fgmm, gselect, n, frame, minPost));
      |out.post| == n + 1 <= |gselect| &&
      (out.ok ==> forall t | 0 <= t < n + 1 :: IsFrameDistribution(out.post[t], gselect[t], minPost))
  {
    var fr := ScoreFrame(fgmm, gselect, n, frame, minPost);
    var out := Extend(before, fr);
    assert n < |gselect|;
    if out.ok {
      GoodFrameIsDistribution(fgmm, gselect, n, frame, minPost);
      forall t | 0 <= t < n + 1 ensures IsFrameDistribution(out.post[t], gselect[t], minPost) {
        if t < n {
          assert out.post[t] == before.post[t];
        }
      }
    }
  }

  /** Every utterance of a run that did not fault is counted exactly once,
      as done or as an error. */
  lemma {:induction false} EveryUtteranceCounted(fgmm: FullGmm, gselect: seq<seq<int>>, minPost: real, utts: seq<Utterance>, init: Posterior)
    requires fgmm.WellFormed()
    ensures !PosteriorRun(fgmm, gselect, minPost, utts, init).faulted ==>
      PosteriorRun(fgmm, gselect, minPost, utts, init).report.numDone +
      PosteriorRun(fgmm, gselect, minPost, utts, init).report.numErr == |utts|
    decreases |utts|
  {
    if |utts| > 0 {
      EveryUtteranceCounted(fgmm, gselect, minPost, utts[..|utts| - 1], init);
    }
  }

  /** A rejected utterance adds one error and leaves the done count, the
      log-likelihood and frame totals and the shared buffer as they were. */
  lemma RejectionLeavesTotals(fgmm: FullGmm, gselect: seq<seq<int>>, minPost: real, utts: seq<Utterance>, u: Utterance, init: Posterior)
    requires fgmm.WellFormed()
    requires !PosteriorRun(fgmm, gselect, minPost, utts, init).faulted
    requires ScoreUtterance(fgmm, gselect, u.feats, minPost).Scored?
    requires !ScoreUtterance(fgmm, gselect, u.feats, minPost).ok
    ensures var before := PosteriorRun(fgmm, gselect, minPost, utts, init);
      var after := PosteriorRun(fgmm, gselect, minPost, utts + [u], init);
      !after.faulted && after.post == before.post &&
      after.report.numErr == before.report.numErr + 1 &&
      after.report.numDone == before.report.numDone &&
      after.report.totLoglike == before.report.totLoglike &&
      after.report.totFrames == before.report.totFrames
  {
    assert (utts + [u])[..|utts|] == utts;
  }

  ghost predicate Accepted(fgmm: FullGmm, gselect: seq<seq<int>>, minPost: real, u: Utterance)
    requires fgmm.WellFormed()
  {
    ScoreUtterance(fgmm, gselect, u.feats, minPost).Scored? && ScoreUtterance(fgmm, gselect, u.feats, minPost).ok
  }

  ghost predicate Rejected(fgmm: FullGmm, gselect: seq<seq<int>>, minPost: real, u: Utterance)
    requires fgmm.WellFormed()
  {
    ScoreUtterance(fgmm, gselect, u.feats, minPost).Scored? && !ScoreUtterance(fgmm, gselect, u.feats, minPost).ok
  }

  /** Utterance j is accepted, its posterior is `post`, and every utterance
      after it is rejected. */
  ghost predicate LastAcceptedAt(fgmm: FullGmm, gselect: seq<seq<int>>, minPost: real, utts: seq<Utterance>, j: int, post: Posterior)
    requires fgmm.WellFormed()
  {
    0 <= j < |utts| &&
    Accepted(fgmm, gselect, minPost, utts[j]) &&
    post == ScoreUtterance(fgmm, gselect, utts[j].feats, minPost).post &&
    forall k | j < k < |utts| :: Rejected(fgmm, gselect, minPost, utts[k])
  }

  /** One step of PosteriorRun that does not fault. */
  lemma RunStep(fgmm: FullGmm, gselect: seq<seq<int>>, minPost: real, utts: seq<Utterance>, init: Posterior)
    requires fgmm.WellFormed() && |utts| > 0
    requires !PosteriorRun(fgmm, gselect, minPost, utts, init).faulted
    ensures var n := |utts| - 1;
      var before := PosteriorRun(fgmm, gselect, minPost, utts[..n], init);
      var after := PosteriorRun(fgmm, gselect, minPost, utts, init);
      !before.faulted &&
      (Accepted(fgmm, gselect, minPost, utts[n]) ==>
         after.post == ScoreUtterance(fgmm, gselect, utts[n].feats, minPost).post &&
         after.report.numDone == before.report.numDone + 1) &&
      (!Accepted(fgmm, gselect, minPost, utts[n]) ==>
         Rejected(fgmm, gselect, minPost, utts[n]) &&
         after.post == before.post && after.report.numDone == before.report.numDone)
  {
  }

  /** A rejected utterance appended after the last accepted one keeps it
      the last accepted one. */
  lemma ExtendLastAccepted(fgmm: FullGmm, gselect: seq<seq<int>>, minPost: real, prefix: seq<Utterance>,
                           u: Utterance, j: int, post: Posterior)
    requires fgmm.WellFormed()
    requires LastAcceptedAt(fgmm, gselect, minPost, prefix, j, post)
    requires Rejected(fgmm, gselect, minPost, u)
    ensures LastAcceptedAt(fgmm, gselect, minPost, prefix + [u], j, post)
  {
    var utts := prefix + [u];
    assert utts[j] == prefix[j];
    forall k | j < k < |utts| ensures Rejected(fgmm, gselect, minPost, utts[k]) {
      if k < |prefix| {
        assert utts[k] == prefix[k];
      }
    }
  }

  /** The index of the last accepted utterance of a run without fault in
      which some utterance was accepted. */
  lemma {:induction false} LastAccepted(fgmm: FullGmm, gselect: seq<seq<int>>, minPost: real, utts: seq<Utterance>, init: Posterior)
    returns (j: int)
    requires fgmm.WellFormed()
    requires !PosteriorRun(fgmm, gselect, minPost, utts, init).faulted
    ensures PosteriorRun(fgmm, gselect, minPost, utts, init).report.numDone == 0 ==>
      PosteriorRun(fgmm, gselect, minPost, utts, init).post == init
    ensures PosteriorRun(fgmm, gselect, minPost, utts, init).report.numDone != 0 ==>
      LastAcceptedAt(fgmm, gselect, minPost, utts, j, PosteriorRun(fgmm, gselect, minPost, utts, init).post)
    decreases |utts|
  {
    j := -1;
    if |utts| > 0 {
      var n := |utts| - 1;
      var i := LastAccepted(fgmm, gselect, minPost, utts[..n], init);
      assert utts[..n] + [utts[n]] == utts;
      j := LastAcceptedStep(fgmm, gselect, minPost, init, utts[..n], utts[n],
                            PosteriorRun(fgmm, gselect, minPost, utts[..n], init),
                            PosteriorRun(fgmm, gselect, minPost, utts, init), i);
    }
  }

  /** The step of LastAccepted, over the states before and after one more
      utterance u. */
  lemma LastAcceptedStep(fgmm: FullGmm, gselect: seq<seq<int>>, minPost: real, init: Posterior,
                         prefix: seq<Utterance>, u: Utterance, before: FgmmState, after: FgmmState, i: int)
    returns (j: int)
    requires fgmm.WellFormed()
    requires after == Advance(before, ScoreUtterance(fgmm, gselect, u.feats, minPost), |u.feats|)
    requires !after.faulted
    requires before.report.numDone == 0 ==> before.post == init
    requires before.report.numDone != 0 ==> LastAcceptedAt(fgmm, gselect, minPost, prefix, i, before.post)
    ensures after.report.numDone == 0 ==> after.post == init
    ensures after.report.numDone != 0 ==> LastAcceptedAt(fgmm, gselect, minPost, prefix + [u], j, after.post)
  {
    var out := ScoreUtterance(fgmm, gselect, u.feats, minPost);
    if Accepted(fgmm, gselect, minPost, u) {
      j := |prefix|;
      assert (prefix + [u])[j] == u;
    } else {
      j := i;
      if before.report.numDone != 0 {
        ExtendLastAccepted(fgmm, gselect, minPost, prefix, u, i, before.post);
      }
    }
  }

  /** The shared buffer after a run without fault: the initial contents when
      nothing was accepted; otherwise the posterior of the last accepted
      utterance j, every later utterance having been rejected. Earlier
      accepted posteriors do not survive. */
  lemma BufferHoldsLastAccepted(fgmm: FullGmm, gselect: seq<seq<int>>, minPost: real, utts: seq<Utterance>, init: Posterior)
    requires fgmm.WellFormed()
    requires !PosteriorRun(fgmm, gselect, minPost, utts, init).faulted
    ensures PosteriorRun(fgmm, gselect, minPost, utts, init).report.numDone == 0 ==>
      PosteriorRun(fgmm, gselect, minPost, utts, init).post == init
    ensures PosteriorRun(fgmm, gselect, minPost, utts, init).report.numDone != 0 ==>
      exists j :: LastAcceptedAt(fgmm, gselect, minPost, utts, j, PosteriorRun(fgmm, gselect, minPost, utts, init).post)
  {
    var j := LastAccepted(fgmm, gselect, minPost, utts, init);
  }
}

=== FILE: pruning.dfy ===
/** The per-frame part of stage 2 (`function_fgmm`, lines 271-290): pruning
    of the softmax weights below `min_post`, the fallback to the pre-pruning
    best Gaussian, renormalisation, and emission of the sparse frame
    posterior. */
module Pruning {
  import opened Types

  function Abs(x: real): real
  {
    if x < 0.0 then -x else x
  }

  ghost predicate NonNegative(w: seq<real>)
  {
    forall i | 0 <= i < |w| :: w[i] >= 0.0
  }

  /** Index reported by Kaldi's Vector::Max: the first index holding the
      largest weight. */
  function FirstMaxIndex(w: seq<real>): (m: nat)
    requires |w| > 0
    ensures m < |w|
    ensures forall i | 0 <= i < |w| :: w[i] <= w[m]
    ensures forall i | 0 <= i < m :: w[i] < w[m]
    decreases |w|
  {
    if |w| == 1 then 0
    else
      var m' := FirstMaxIndex(w[..|w| - 1]);
      if w[|w| - 1] > w[m'] then |w| - 1 else m'
  }

  /** The weights with every one strictly below the threshold set to zero. */
  function Zeroed(w: seq<real>, minPost: real): (z: seq<real>)
    ensures |z| == |w|
    ensures forall i | 0 <= i < |w| :: z[i] == (if w[i] < minPost then 0.0 else w[i])
  {
    seq(|w|, i requires 0 <= i < |w| => if w[i] < minPost then 0.0 else w[i])
  }

  /** The weights of one accepted frame after the `min_post` step: untouched
      when `min_post` is zero; otherwise pruned, then either the fallback
      (weight 1.0 on the pre-pruning maximum) when nothing survives, or
      rescaled by one over the surviving sum. */
  function Pruned(w: seq<real>, minPost: real): (p: seq<real>)
    requires |w| > 0
    ensures |p| == |w|
  {
    if minPost == 0.0 then w
    else
      var z := Zeroed(w, minPost);
      var s := Sum(z);
      if s == 0.0 then z[FirstMaxIndex(w) := 1.0] else ScaleSeq(1.0 / s, z)
  }

  /** Lines 271-283 on the `loglikes` vector, in place. */
  method PruneInPlace(loglikes: array<real>, minPost: real)
    requires loglikes.Length > 0
    modifies loglikes
    ensures loglikes[..] == Pruned(old(loglikes[..]), minPost)
  {
    if minPost != 0.0 {
      var maxIndex := FirstMaxIndex(loglikes[..]);
      ZeroBelow(loglikes, minPost);
      var sum := Sum(loglikes[..]);
      if sum == 0.0 {
        loglikes[maxIndex] := 1.0;
      } else {
        ScaleInPlace(loglikes, 1.0 / sum);
      }
    }
  }

  /** The zeroing loop of lines 274-276. */
  method ZeroBelow(loglikes: array<real>, minPost: real)
    modifies loglikes
    ensures loglikes[..] == Zeroed(old(loglikes[..]), minPost)
  {
    for i := 0 to loglikes.Length
      invariant forall j | 0 <= j < i :: loglikes[j] == (if old(loglikes[j]) < minPost then 0.0 else old(loglikes[j]))
      invariant forall j | i <= j < loglikes.Length :: loglikes[j] == old(loglikes[j])
    {
      if loglikes[i] < minPost {
        loglikes[i] := 0.0;
      }
    }
  }

  /** Kaldi's Vector::Scale, as used at line 281. */
  method ScaleInPlace(loglikes: array<real>, c: real)
    modifies loglikes
    ensures loglikes[..] == ScaleSeq(c, old(loglikes[..]))
  {
    for i := 0 to loglikes.Length
      invariant forall j | 0 <= j < i :: loglikes[j] == c * old(loglikes[j])
      invariant forall j | i <= j < loglikes.Length :: loglikes[j] == old(loglikes[j])
    {
      loglikes[i] := c * loglikes[i];
    }
    assert forall j | 0 <= j < loglikes.Length :: loglikes[..][j] == ScaleSeq(c, old(loglikes[..]))[j];
  }

  // ---------------------------------------------------------------------
  // Sums of weight vectors

  lemma {:induction false} SumNonNegative(w: seq<real>)
    requires NonNegative(w)
    ensures Sum(w) >= 0.0
    ensures Sum(w) == 0.0 ==> forall i | 0 <= i < |w| :: w[i] == 0.0
    decreases |w|
  {
    if |w| > 0 {
      SumNonNegative(w[..|w| - 1]);
    }
  }

  lemma {:induction false} SumOfUpdate(w: seq<real>, m: nat, v: real)
    requires m < |w|
    ensures Sum(w[m := v]) == Sum(w) - w[m] + v
    decreases |w|
  {
    var n := |w| - 1;
    if m < n {
      assert w[m := v][..n] == w[..n][m := v];
      SumOfUpdate(w[..n], m, v);
    } else {
      assert w[m := v][..n] == w[..n];
    }
  }

  // ---------------------------------------------------------------------
  // The min_post step

  /** With a nonzero threshold: every weight strictly below it is zeroed, and
      when something survives, the survivors are divided by their sum. */
  lemma PrunedWeights(w: seq<real>, minPost: real)
    requires |w| > 0 && minPost != 0.0
    ensures Sum(Zeroed(w, minPost)) != 0.0 ==>
      forall i | 0 <= i < |w| ::
        Pruned(w, minPost)[i] == (if w[i] < minPost then 0.0 else w[i] / Sum(Zeroed(w, minPost)))
  {
  }

  /** A frame is emptied by pruning exactly when every weight is below the
      threshold or zero; it then holds weight 1.0 at the first index of the
      pre-pruning maximum and 0 everywhere else. */
  lemma EmptiedFrame(w: seq<real>, minPost: real)
    requires |w| > 0 && minPost != 0.0 && NonNegative(w)
    ensures (Sum(Zeroed(w, minPost)) == 0.0) <==> (forall i | 0 <= i < |w| :: w[i] < minPost || w[i] == 0.0)
    ensures Sum(Zeroed(w, minPost)) == 0.0 ==>
      forall i | 0 <= i < |w| :: Pruned(w, minPost)[i] == (if i == FirstMaxIndex(w) then 1.0 else 0.0)
  {
    var z := Zeroed(w, minPost);
    assert NonNegative(z);
    SumNonNegative(z);
    if forall i | 0 <= i < |w| :: w[i] < minPost || w[i] == 0.0 {
      assert forall i | 0 <= i < |z| :: z[i] == 0.0;
      AllZeroSum(z);
    }
  }

  lemma {:induction false} AllZeroSum(z: seq<real>)
    requires forall i | 0 <= i < |z| :: z[i] == 0.0
    ensures Sum(z) == 0.0
    decreases |z|
  {
    if |z| > 0 {
      AllZeroSum(z[..|z| - 1]);
    }
  }

  /** With a nonzero threshold the weights of a frame sum to exactly one
      afterwards, in both the rescale and the fallback case. */
  lemma PrunedSumsToOne(w: seq<real>, minPost: real)
    requires |w| > 0 && minPost != 0.0 && NonNegative(w)
    ensures Sum(Pruned(w, minPost)) == 1.0
  {
    var z := Zeroed(w, minPost);
    var s := Sum(z);
    if s == 0.0 {
      assert NonNegative(z);
      SumNonNegative(z);
      SumOfUpdate(z, FirstMaxIndex(w), 1.0);
    } else {
      SumOfScaled(1.0 / s, z);
    }
  }

  /** The pruned weights stay non-negative. */
  lemma PrunedNonNegative(w: seq<real>, minPost: real)
    requires |w| > 0 && NonNegative(w)
    ensures NonNegative(Pruned(w, minPost))
  {
    if minPost != 0.0 {
      var z := Zeroed(w, minPost);
      assert NonNegative(z);
      SumNonNegative(z);
    }
  }

  // ---------------------------------------------------------------------
  // Emission of the sparse frame posterior (lines 284-290)

  /** The indices whose weight is nonzero, in increasing order. */
  function NonzeroIndices(w: seq<real>): (idx: seq<nat>)
    ensures forall k | 0 <= k < |idx| :: idx[k] < |w|
    decreases |w|
  {
    if |w| == 0 then []
    else NonzeroIndices(w[..|w| - 1]) + (if w[|w| - 1] != 0.0 then [|w| - 1] else [])
  }

  /** The sparse posterior of a frame: one (shortlist entry, weight) pair per
      nonzero weight, in index order. */
  function Sparse(w: seq<real>, sel: seq<int>): FramePosterior
    requires |w| == |sel|
    decreases |w|
  {
    if |w| == 0 then []
    else
      var n := |w| - 1;
      Sparse(w[..n], sel[..n]) + (if w[n] != 0.0 then [Entry(sel[n], w[n])] else [])
  }

  /** The push_back loop of lines 284-289. */
  method EmitFrame(w: seq<real>, sel: seq<int>) returns (entries: FramePosterior)
    requires |w| == |sel|
    ensures entries == Sparse(w, sel)
  {
    entries := [];
    for i := 0 to |w|
      invariant entries == Sparse(w[..i], sel[..i])
    {
      assert w[..i + 1][..i] == w[..i] && sel[..i + 1][..i] == sel[..i];
      if w[i] != 0.0 {
        entries := entries + [Entry(sel[i], w[i])];
      }
    }
    assert w[..|w|] == w && sel[..|sel|] == sel;
  }

  /** NonzeroIndices lists exactly the indices of nonzero weights, each once,
      in strictly increasing order. */
  lemma {:induction false} NonzeroIndicesExact(w: seq<real>)
    ensures forall k, l | 0 <= k < l < |NonzeroIndices(w)| :: NonzeroIndices(w)[k] < NonzeroIndices(w)[l]
    ensures forall i | 0 <= i < |w| :: (w[i] != 0.0 <==> i in NonzeroIndices(w))
    decreases |w|
  {
    if |w| > 0 {
      var n := |w| - 1;
      NonzeroIndicesExact(w[..n]);
      assert forall i | 0 <= i < n :: w[..n][i] == w[i];
    }
  }

  /** The k-th emitted pair is (sel[i], w[i]) for the k-th nonzero index i. */
  lemma {:induction false} SparseEntries(w: seq<real>, sel: seq<int>)
    requires |w| == |sel|
    ensures |Sparse(w, sel)| == |NonzeroIndices(w)|
    ensures forall k | 0 <= k < |Sparse(w, sel)| ::
      Sparse(w, sel)[k] == Entry(sel[NonzeroIndices(w)[k]], w[NonzeroIndices(w)[k]])
    decreases |w|
  {
    if |w| > 0 {
      var n := |w| - 1;
      SparseEntries(w[..n], sel[..n]);
    }
  }

  /** Dropping zero weights does not change the weight total. */
  lemma {:induction false} SparseTotal(w: seq<real>, sel: seq<int>)
    requires |w| == |sel|
    ensures FrameTotal(Sparse(w, sel)) == Sum(w)
    decreases |w|
  {
    if |w| > 0 {
      var n := |w| - 1;
      SparseTotal(w[..n], sel[..n]);
      var rest := Sparse(w[..n], sel[..n]);
      if w[n] != 0.0 {
        assert (rest + [Entry(sel[n], w[n])])[..|rest|] == rest;
      } else {
        assert rest + [] == rest;
      }
    }
  }

  /** Non-negative weights give strictly positive emitted weights. */
  lemma {:induction false} SparsePositive(w: seq<real>, sel: seq<int>)
    requires |w| == |sel| && NonNegative(w)
    ensures forall k | 0 <= k < |Sparse(w, sel)| :: Sparse(w, sel)[k].weight > 0.0
    decreases |w|
  {
    if |w| > 0 {
      var n := |w| - 1;
      SparsePositive(w[..n], sel[..n]);
    }
  }

  /** The emitted posterior of a frame that passed the 0.01 sum check: never
      empty, every weight positive, summing to exactly one when `min_post` is
      nonzero and to within 0.01 of one otherwise. This is the reason the
      assertion of line 290 cannot fail. */
  lemma AcceptedFrameIsDistribution(w: seq<real>, sel: seq<int>, minPost: real)
    requires |w| == |sel| > 0 && NonNegative(w)
    requires Abs(Sum(w) - 1.0) <= 0.01
    ensures |Sparse(Pruned(w, minPost), sel)| > 0
    ensures forall k | 0 <= k < |Sparse(Pruned(w, minPost), sel)| :: Sparse(Pruned(w, minPost), sel)[k].weight > 0.0
    ensures minPost != 0.0 ==> FrameTotal(Sparse(Pruned(w, minPost), sel)) == 1.0
    ensures minPost == 0.0 ==> Abs(FrameTotal(Sparse(Pruned(w, minPost), sel)) - 1.0) <= 0.01
  {
    var p := Pruned(w, minPost);
    PrunedNonNegative(w, minPost);
    SparsePositive(p, sel);
    SparseTotal(p, sel);
    if minPost != 0.0 {
      PrunedSumsToOne(w, minPost);
    }
  }

  /** When pruning empties a frame, the emitted posterior is the single pair
      (shortlist entry of the pre-pruning maximum, 1.0). */
  lemma FallbackSingleEntry(w: seq<real>, sel: seq<int>, minPost: real)
    requires |w| == |sel| > 0 && NonNegative(w) && minPost != 0.0
    requires forall i | 0 <= i < |w| :: w[i] < minPost || w[i] == 0.0
    ensures Sparse(Pruned(w, minPost), sel) == [Entry(sel[FirstMaxIndex(w)], 1.0)]
  {
    var m := FirstMaxIndex(w);
    var p := Pruned(w, minPost);
    EmptiedFrame(w, minPost);
    NonzeroIndicesOfUnit(p, m);
    SparseEntries(p, sel);
  }

  lemma {:induction false} NonzeroIndicesOfUnit(p: seq<real>, m: nat)
    requires m < |p|
    requires forall i | 0 <= i < |p| :: p[i] == (if i == m then 1.0 else 0.0)
    ensures NonzeroIndices(p) == [m]
    decreases |p|
  {
    var n := |p| - 1;
    if m == n {
      NonzeroIndicesOfZero(p[..n]);
    } else {
      NonzeroIndicesOfUnit(p[..n], m);
    }
  }

  lemma {:induction false} NonzeroIndicesOfZero(p: seq<real>)
    requires forall i | 0 <= i < |p| :: p[i] == 0.0
    ensures NonzeroIndices(p) == []
    decreases |p|
  {
    if |p| > 0 {
      NonzeroIndicesOfZero(p[..|p| - 1]);
    }
  }
}

=== FILE: selection.dfy ===
/** Stage 1, Gaussian selection (`function_gmm`): clamp the requested
    shortlist size to the model and select a shortlist per frame for every
    utterance, overwriting the shared shortlist buffer each time. */
module Selection {
  import opened Types

  /** The diagnostics the stage logs at its end. */
  datatype GmmReport = GmmReport(numDone: int, numErr: int, totFrames: int, totLike: real)

  /** The effective shortlist size: the request, reduced to the model's
      Gaussian count when it asks for more. */
  function ClampShortlist(requested: int, numGauss: int): (k: int)
    requires requested > 0
    ensures k <= requested && k <= numGauss
    ensures k == requested || k == numGauss
    ensures numGauss > 0 ==> k > 0
  {
    if requested > numGauss then numGauss else requested
  }

  /** Number of frames over a run of utterances. */
  function FrameCount(utts: seq<Utterance>): int
  {
    if |utts| == 0 then 0 else FrameCount(utts[..|utts| - 1]) + |utts[|utts| - 1].feats|
  }

  /** Total selection log-likelihood over a run of utterances. */
  function LikeTotal(gmm: DiagGmm, k: int, utts: seq<Utterance>): real
  {
    if |utts| == 0 then 0.0
    else LikeTotal(gmm, k, utts[..|utts| - 1]) + gmm.select(utts[|utts| - 1].feats, k).loglike
  }

  /** `function_gmm`. A non-positive request fails the assertion of line
      188, which ends the whole program; the model instead gives status -1
      with the buffer untouched and lets the server go on. Otherwise every utterance is processed and none is rejected; the shared
      buffer ends with the shortlists of the LAST utterance only (or is left
      alone when there is none), and the status is 0 exactly when at least
      one utterance was read. */
  method GaussianSelectionStage(numGselect: int, gmm: DiagGmm, utts: seq<Utterance>, buf: Buffers)
    returns (status: int, report: GmmReport)
    modifies buf`gselect
    ensures numGselect <= 0 ==> status == -1 && buf.gselect == old(buf.gselect)
    ensures numGselect > 0 ==> status == (if |utts| != 0 then 0 else 1)
    ensures numGselect > 0 && |utts| == 0 ==> buf.gselect == old(buf.gselect)
    ensures numGselect > 0 && |utts| > 0 ==>
      buf.gselect == gmm.select(utts[|utts| - 1].feats, ClampShortlist(numGselect, gmm.numGauss)).shortlists
    ensures numGselect > 0 && gmm.WellFormed() && gmm.numGauss > 0 && |utts| > 0 ==>
      |buf.gselect| == |utts[|utts| - 1].feats| &&
      forall t | 0 <= t < |buf.gselect| :: |buf.gselect[t]| == ClampShortlist(numGselect, gmm.numGauss)
    ensures numGselect > 0 ==>
      report == GmmReport(|utts|, 0, FrameCount(utts), LikeTotal(gmm, ClampShortlist(numGselect, gmm.numGauss), utts))
  {
    if numGselect <= 0 {
      return -1, GmmReport(0, 0, 0, 0.0);
    }
    var k := numGselect;
    if k > gmm.numGauss {
      k := gmm.numGauss;
    }
    var totLike := 0.0;
    var totT := 0;
    var numDone, numErr := 0, 0;
    for i := 0 to |utts|
      invariant totT == FrameCount(utts[..i])
      invariant totLike == LikeTotal(gmm, k, utts[..i])
      invariant numDone == i && numErr == 0
      invariant i == 0 ==> buf.gselect == old(buf.gselect)
      invariant i > 0 ==> buf.gselect == gmm.select(utts[i - 1].feats, k).shortlists
    {
      var mat := utts[i].feats;
      var sel := gmm.select(mat, k);
      buf.gselect := sel.shortlists;
      assert utts[..i + 1][..i] == utts[..i];
      totT := totT + |mat|;
      totLike := totLike + sel.loglike;
      numDone := numDone + 1;
    }
    assert utts[..|utts|] == utts;
    status := if numDone != 0 then 0 else 1;
    report := GmmReport(numDone, numErr, totT, totLike);
  }
}

=== FILE: server.dfy ===
/** The connection loop of the i-vector extraction server: accept a
    connection, read one request of at most MAXBUF bytes, stop on "quit",
    otherwise run the three stages on the named feature archive and
    acknowledge. The models, the options and the two intermediate buffers
    live for the whole session, so each request starts from the buffers the
    previous one left behind. */
module Server {
  import opened Types
  import opened Selection
  import opened Posteriors
  import opened ExtractionTask
  import opened Extraction

  /** Size of the receive buffer. */
  const MaxBuf: int := 1024
  /** The request that shuts the server down. */
  const Quit: string := "quit"
  /** The acknowledgement sent after a served request (19 bytes). */
  const Ack: string := "Operation completed"

  /** One accepted connection: the descriptor `accept` returned, what `recv`
      returned, and the bytes the client sent. */
  datatype Connection = Connection(clientfd: int, n: int, sent: seq<char>)
  {
    /** What `recv` may return: at most the buffer size and, when positive,
        no more than the client sent. */
    predicate WellFormed()
    {
      n <= MaxBuf && (n > 0 ==> n <= |sent|)
    }
  }

  /** What the loop does with a connection. */
  datatype Action = Pause | Drop | Stop | Serve(featureRspecifier: string)

  /** The branches of lines 386-410. */
  function Dispatch(c: Connection): (a: Action)
    requires c.WellFormed()
    ensures a == Pause <==> c.clientfd <= 0
    ensures a == Drop <==> c.clientfd > 0 && c.n <= 0
    ensures a == Stop <==> c.clientfd > 0 && c.n > 0 && c.sent[..c.n] == Quit
    ensures a.Serve? <==> c.clientfd > 0 && c.n > 0 && c.sent[..c.n] != Quit
    ensures a.Serve? ==> a.featureRspecifier == c.sent[..c.n] && 0 < |a.featureRspecifier| <= MaxBuf
  {
    if c.clientfd <= 0 then Pause
    else if c.n <= 0 then Drop
    else if c.sent[..c.n] == Quit then Stop
    else Serve(c.sent[..c.n])
  }

  /** The command-line options and the three models loaded at start-up;
      `reader` stands for the feature archive an rspecifier names. */
  datatype Config = Config(numGselect: int, minPost: real, computeObjf: bool,
                           acousticWeight: real, maxCount: real,
                           gmm: DiagGmm, fgmm: FullGmm, extractor: Extractor,
                           reader: string -> seq<Utterance>)
  {
    ghost predicate WellFormed()
    {
      fgmm.WellFormed() && extractor.WellFormed()
    }
  }

  /** A message the server sent on a client socket. */
  datatype Reply = Reply(clientfd: int, bytes: string)

  /** Everything the loop changes: the two shared buffers, the output
      archive as the last request left it, the replies sent, the client
      descriptors closed, the number of pauses, and whether it still runs. */
  datatype ServerState = ServerState(gselect: seq<seq<int>>, post: Posterior, archive: seq<Record>,
                                     replies: seq<Reply>, closed: seq<int>, pauses: nat, running: bool)

  /** The shortlist buffer after stage 1. */
  function ShortlistsAfter(cfg: Config, utts: seq<Utterance>, gselect: seq<seq<int>>): seq<seq<int>>
  {
    if cfg.numGselect <= 0 || |utts| == 0 then gselect
    else cfg.gmm.select(utts[|utts| - 1].feats, ClampShortlist(cfg.numGselect, cfg.gmm.numGauss)).shortlists
  }

  /** The state after one served request: the stages run in order, each
      whatever the previous one returned, stage 2 reading the shortlists
      stage 1 left, stage 3 reading the posterior stage 2 left, and the
      archive re-created by stage 3. */
  function ServeRequest(cfg: Config, s: ServerState, clientfd: int, featureRspecifier: string): ServerState
    requires cfg.WellFormed()
  {
    var utts := cfg.reader(featureRspecifier);
    var gselect := ShortlistsAfter(cfg, utts, s.gselect);
    var post := PosteriorRun(cfg.fgmm, gselect, cfg.minPost, utts, s.post).post;
    var archive := ExtractRun(cfg.extractor, cfg.computeObjf, cfg.acousticWeight, cfg.maxCount, post, utts).writes;
    s.(gselect := gselect, post := post, archive := archive,
       replies := s.replies + [Reply(clientfd, Ack)], closed := s.closed + [clientfd])
  }

  /** One turn of the loop. A stopped server does nothing more. */
  function Next(cfg: Config, s: ServerState, c: Connection): ServerState
    requires cfg.WellFormed() && c.WellFormed()
  {
    if !s.running then s
    else
      match Dispatch(c)
      case Pause => s.(pauses := s.pauses + 1, closed := s.closed + [c.clientfd])
      case Drop => s.(closed := s.closed + [c.clientfd])
      case Stop => s.(running := false)
      case Serve(spec) => ServeRequest(cfg, s, c.clientfd, spec)
  }

  ghost predicate AllWellFormed(conns: seq<Connection>)
  {
    forall i | 0 <= i < |conns| :: conns[i].WellFormed()
  }

  /** The loop over a run of accepted connections. */
  function Session(cfg: Config, s: ServerState, conns: seq<Connection>): ServerState
    requires cfg.WellFormed() && AllWellFormed(conns)
    decreases |conns|
  {
    if |conns| == 0 then s
    else Next(cfg, Session(cfg, s, conns[..|conns| - 1]), conns[|conns| - 1])
  }

  class IvectorServer {
    const cfg: Config
    /** `gselect` and `post` of `main`, shared by every request. */
    const buf: Buffers
    var archive: seq<Record>
    var replies: seq<Reply>
    var closed: seq<int>
    var pauses: nat
    var running: bool

    function State(): ServerState
      reads this, buf
    {
      ServerState(buf.gselect, buf.post, archive, replies, closed, pauses, running)
    }

    constructor (cfg: Config)
      ensures this.cfg == cfg && fresh(buf)
      ensures State() == ServerState([], [], [], [], [], 0, true)
    {
      this.cfg := cfg;
      buf := new Buffers();
      archive := [];
      replies := [];
      closed := [];
      pauses := 0;
      running := true;
    }

    /** One iteration of the `while (1)` loop of lines 386-410. */
    method Handle(c: Connection)
      requires cfg.WellFormed() && c.WellFormed() && running
      modifies this, buf
      ensures State() == Next(cfg, old(State()), c)
    {
      if c.clientfd > 0 {
        var n := c.n;
        if n > 0 {
          var featureRspecifier := c.sent[..n];
          if featureRspecifier == Quit {
            running := false;
            return;
          }
          ghost var s := State();
          var utts := cfg.reader(featureRspecifier);
          var status1, report1 := GaussianSelectionStage(cfg.numGselect, cfg.gmm, utts, buf);
          var status2, report2 := PosteriorStage(cfg.minPost, cfg.fgmm, utts, buf.gselect, buf);
          var writer := new Writer();
          var status3, report3 := IvectorStage(cfg.computeObjf, cfg.acousticWeight, cfg.maxCount,
                                               utts, buf.post, cfg.extractor, writer);
          archive := writer.records;
          replies := replies + [Reply(c.clientfd, Ack)];
          closed := closed + [c.clientfd];
          assert State() == ServeRequest(cfg, s, c.clientfd, featureRspecifier);
          return;
        }
      } else {
        pauses := pauses + 1;
      }
      closed := closed + [c.clientfd];
    }

    /** The loop over the connections accepted in turn, up to and including
        the first "quit" request; `handled` is how many were taken. */
    method Run(conns: seq<Connection>) returns (handled: nat)
      requires cfg.WellFormed() && AllWellFormed(conns) && running
      modifies this, buf
      ensures handled <= |conns|
      ensures State() == Session(cfg, old(State()), conns)
      ensures State() == Session(cfg, old(State()), conns[..handled])
      ensures handled < |conns| ==> !running
      ensures handled > 0 ==> Session(cfg, old(State()), conns[..handled - 1]).running
    {
      ghost var s0 := State();
      handled := 0;
      while handled < |conns| && running
        invariant handled <= |conns|
        invariant State() == Session(cfg, s0, conns[..handled])
        invariant handled > 0 ==> Session(cfg, s0, conns[..handled - 1]).running
      {
        assert conns[..handled + 1][..handled] == conns[..handled];
        Handle(conns[handled]);
        handled := handled + 1;
      }
      StoppedIsFinal(cfg, s0, conns, handled);
    }
  }

  // ---------------------------------------------------------------------
  // Properties of the loop

  /** Once the server has stopped, no later connection changes anything. */
  lemma {:induction false} StoppedIsFinal(cfg: Config, s: ServerState, conns: seq<Connection>, i: nat)
    requires cfg.WellFormed() && AllWellFormed(conns) && i <= |conns|
    requires i == |conns| || !Session(cfg, s, conns[..i]).running
    ensures Session(cfg, s, conns) == Session(cfg, s, conns[..i])
    decreases |conns| - i
  {
    if i < |conns| {
      assert conns[..i + 1][..i] == conns[..i];
      StoppedIsFinal(cfg, s, conns, i + 1);
    } else {
      assert conns[..i] == conns;
    }
  }

  /** Every message the server sends is the 19-byte acknowledgement, sent on
      a valid client descriptor; a "quit" request gets none. */
  lemma {:induction false} OnlyAcknowledgementsSent(cfg: Config, s: ServerState, conns: seq<Connection>)
    requires cfg.WellFormed() && AllWellFormed(conns)
    ensures var t := Session(cfg, s, conns);
      |s.replies| <= |t.replies| && t.replies[..|s.replies|] == s.replies &&
      forall k | |s.replies| <= k < |t.replies| :: t.replies[k].bytes == Ack && t.replies[k].clientfd > 0
    decreases |conns|
  {
    if |conns| > 0 {
      OnlyAcknowledgementsSent(cfg, s, conns[..|conns| - 1]);
    }
  }

  /** One acknowledgement per served request: the replies grow by one
      exactly when the connection carries a request other than "quit" and
      the server was running. */
  lemma ReplyIffServed(cfg: Config, s: ServerState, c: Connection)
    requires cfg.WellFormed() && c.WellFormed()
    ensures |Next(cfg, s, c).replies| == |s.replies| + (if s.running && Dispatch(c).Serve? then 1 else 0)
    ensures Next(cfg, s, c).running <==> s.running && Dispatch(c) != Stop
  {
  }

  /** A request that names an empty archive runs every stage over nothing:
      both shared buffers keep what the previous request left and the
      archive is re-created empty. */
  lemma EmptyRequestKeepsBuffers(cfg: Config, s: ServerState, clientfd: int, spec: string)
    requires cfg.WellFormed() && cfg.reader(spec) == []
    ensures ServeRequest(cfg, s, clientfd, spec).gselect == s.gselect
    ensures ServeRequest(cfg, s, clientfd, spec).post == s.post
    ensures ServeRequest(cfg, s, clientfd, spec).archive == []
  {
  }

  /** The records of one request: one per utterance whose frame count equals
      that of the single posterior left by stage 2, each written from that
      same posterior. */
  lemma RequestRecords(cfg: Config, s: ServerState, clientfd: int, spec: string)
    requires cfg.WellFormed()
    ensures var t := ServeRequest(cfg, s, clientfd, spec);
      var a := Admitted(cfg.reader(spec), |t.post|);
      var scaled := ScaleForCount(cfg.acousticWeight, cfg.maxCount, t.post).post;
      |t.archive| == |a| &&
      (forall k | 0 <= k < |a| :: |a[k].feats| == |t.post|) &&
      forall k | 0 <= k < |a| :: t.archive[k] == Record(a[k].key, WrittenVector(cfg.extractor, a[k].feats, scaled))
  {
    var t := ServeRequest(cfg, s, clientfd, spec);
    WritesUseSharedPosterior(cfg.extractor, cfg.computeObjf, cfg.acousticWeight, cfg.maxCount, t.post, cfg.reader(spec));
    AdmittedShareFrameCount(cfg.reader(spec), |t.post|);
  }
}

=== FILE: types.dfy ===
/** Data model shared by the three pipeline stages and the connection loop:
    feature matrices, sparse posteriors, the three acoustic models (as the
    capabilities the server calls on them) and the buffers the stages share. */
module Types {

  /** One feature vector; a feature matrix is one frame per row. */
  type Frame = seq<real>
  type Matrix = seq<Frame>

  /** One record of the sequential feature reader: utterance key and features. */
  datatype Utterance = Utterance(key: string, feats: Matrix)

  /** One entry of a frame's sparse posterior: (Gaussian index, weight). */
  datatype Entry = Entry(gauss: int, weight: real)
  type FramePosterior = seq<Entry>
  type Posterior = seq<FramePosterior>

  /** One (key, vector) pair handed to the output archive writer. */
  datatype Record = Record(key: string, vector: seq<real>)

  /** Result of the diagonal model's Gaussian selection over a whole matrix:
      the total log-likelihood and one shortlist of Gaussian indices per frame. */
  datatype Selection = Selection(loglike: real, shortlists: seq<seq<int>>)

  /** The diagonal-covariance model of stage 1: its Gaussian count and its
      top-K selection capability. */
  datatype DiagGmm = DiagGmm(numGauss: int, select: (Matrix, int) -> Selection)
  {
    /** What stage 1 relies on: for 0 < k <= NumGauss, one shortlist per
        frame, each of exactly k valid Gaussian indices. */
    ghost predicate WellFormed()
    {
      forall m: Matrix, k: int | 0 < k <= numGauss ::
        |select(m, k).shortlists| == |m| &&
        forall t | 0 <= t < |m| ::
          |select(m, k).shortlists[t]| == k &&
          forall j | 0 <= j < k :: 0 <= select(m, k).shortlists[t][j] < numGauss
    }
  }

  /** Log-likelihoods over a shortlist after the exponential normalisation:
      the log normaliser (the frame's log-likelihood) and one weight per
      shortlisted Gaussian. */
  datatype SoftMaxed = SoftMaxed(logSum: real, weights: seq<real>)

  /** The full-covariance model of stage 2: restricted log-likelihoods of a
      frame over a shortlist, already passed through the softmax. */
  datatype FullGmm = FullGmm(softmax: (Frame, seq<int>) -> SoftMaxed)
  {
    /** What stage 2 relies on: one weight per shortlisted Gaussian, none
        negative. In IEEE arithmetic the weights lie in [0, 1] and sum to one
        up to rounding, or are all NaN (which passes the stage's 0.01 check),
        so the check is practically never failed. The sum is left
        unconstrained here, which keeps the rejection path reachable. */
    ghost predicate WellFormed()
    {
      forall f: Frame, sel: seq<int> ::
        |softmax(f, sel).weights| == |sel| &&
        forall i | 0 <= i < |sel| :: softmax(f, sel).weights[i] >= 0.0
    }
  }

  /** The i-vector extractor of stage 3. The sufficient statistics are a
      function of the features and the posterior, so both capabilities take
      those two directly: the objective function at a given i-vector, and the
      mean of the i-vector distribution computed from a starting i-vector. */
  datatype Extractor = Extractor(
    ivectorDim: int,
    priorOffset: real,
    auxf: (Matrix, Posterior, seq<real>) -> real,
    estimate: (Matrix, Posterior, seq<real>) -> seq<real>)
  {
    /** What stage 3 relies on: a positive dimension, and an estimate of that
        dimension. */
    ghost predicate WellFormed()
    {
      ivectorDim > 0 &&
      forall m: Matrix, p: Posterior, v: seq<real> :: |estimate(m, p, v)| == ivectorDim
    }
  }

  /** The two buffers `main` owns and passes by pointer: stage 1 overwrites
      the shortlists, stage 2 the posterior. They live across requests. */
  class Buffers {
    var gselect: seq<seq<int>>
    var post: Posterior

    constructor ()
      ensures gselect == [] && post == []
    {
      gselect := [];
      post := [];
    }
  }

  /** Sum of a weight vector. */
  function Sum(w: seq<real>): real
  {
    if |w| == 0 then 0.0 else Sum(w[..|w| - 1]) + w[|w| - 1]
  }

  /** Sum of the weights of one frame's sparse posterior. */
  function FrameTotal(e: FramePosterior): real
  {
    if |e| == 0 then 0.0 else FrameTotal(e[..|e| - 1]) + e[|e| - 1].weight
  }

  /** The total of each frame, in frame order. */
  function FrameTotals(p: Posterior): (r: seq<real>)
    ensures |r| == |p|
    ensures forall t | 0 <= t < |p| :: r[t] == FrameTotal(p[t])
  {
    seq(|p|, t requires 0 <= t < |p| => FrameTotal(p[t]))
  }

  /** Kaldi's TotalPosterior: the sum of every weight of every frame. */
  function TotalPosterior(p: Posterior): real
  {
    Sum(FrameTotals(p))
  }

  /** Every weight of a vector multiplied by c. */
  function ScaleSeq(c: real, w: seq<real>): (r: seq<real>)
    ensures |r| == |w|
    ensures forall i | 0 <= i < |w| :: r[i] == c * w[i]
  {
    seq(|w|, i requires 0 <= i < |w| => c * w[i])
  }

  /** Scaling a weight vector scales its sum by the same factor. */
  lemma {:induction false} SumOfScaled(c: real, w: seq<real>)
    ensures Sum(ScaleSeq(c, w)) == c * Sum(w)
    decreases |w|
  {
    if |w| > 0 {
      var n := |w| - 1;
      assert forall i | 0 <= i < n :: ScaleSeq(c, w)[..n][i] == ScaleSeq(c, w[..n])[i];
      assert ScaleSeq(c, w)[..n] == ScaleSeq(c, w[..n]);
      SumOfScaled(c, w[..n]);
      calc {
        Sum(ScaleSeq(c, w));
        Sum(ScaleSeq(c, w[..n])) + c * w[n];
        c * Sum(w[..n]) + c * w[n];
        c * (Sum(w[..n]) + w[n]);
      }
    }
  }

  /** Every weight of one frame multiplied by s. */
  function ScaleFrame(s: real, e: FramePosterior): (r: FramePosterior)
    ensures |r| == |e|
    ensures forall i | 0 <= i < |e| :: r[i] == Entry(e[i].gauss, s * e[i].weight)
  {
    seq(|e|, i requires 0 <= i < |e| => Entry(e[i].gauss, s * e[i].weight))
  }

  /** Kaldi's ScalePosterior: every weight multiplied by s. Kaldi clears
      the frames for s = 0 instead of keeping zero weights; the frame count
      and the totals are the same either way. */
  function ScalePosterior(s: real, p: Posterior): (r: Posterior)
    ensures |r| == |p|
    ensures forall t | 0 <= t < |p| :: r[t] == ScaleFrame(s, p[t])
  {
    seq(|p|, t requires 0 <= t < |p| => ScaleFrame(s, p[t]))
  }

  /** Scaling a frame scales its total by the same factor. */
  lemma {:induction false} FrameTotalOfScaled(s: real, e: FramePosterior)
    ensures FrameTotal(ScaleFrame(s, e)) == s * FrameTotal(e)
    decreases |e|
  {
    if |e| > 0 {
      var n := |e| - 1;
      assert forall i | 0 <= i < n :: ScaleFrame(s, e)[..n][i] == ScaleFrame(s, e[..n])[i];
      assert ScaleFrame(s, e)[..n] == ScaleFrame(s, e[..n]);
      FrameTotalOfScaled(s, e[..n]);
    }
  }

  /** Scaling a posterior scales each frame total by the same factor. */
  lemma FrameTotalsOfScaled(s: real, p: Posterior)
    ensures FrameTotals(ScalePosterior(s, p)) == ScaleSeq(s, FrameTotals(p))
  {
    var q := ScalePosterior(s, p);
    forall t | 0 <= t < |p|
      ensures FrameTotals(q)[t] == ScaleSeq(s, FrameTotals(p))[t]
    {
      FrameTotalOfScaled(s, p[t]);
    }
  }

  /** Scaling a posterior scales its total by the same factor. */
  lemma TotalOfScaled(s: real, p: Posterior)
    ensures TotalPosterior(ScalePosterior(s, p)) == s * TotalPosterior(p)
  {
    FrameTotalsOfScaled(s, p);
    SumOfScaled(s, FrameTotals(p));
  }
}
